=== FILE: README.md ===
# Dynamotime tracked-zone list, modelled in Dafny

Dynamotime is a React time-zone converter. It keeps an ordered list of
tracked zones. Each entry holds:

- `timezone`: an IANA zone identifier;
- `currentTime`: the zone's wall clock, stored as the string `YYYY-MM-DD HH:mm:ss`;
- `sliderValue`: the hour the entry's slider shows.

The user can:

- add a zone;
- delete an entry;
- drag an entry to a new place;
- reverse the list;
- move one entry's slider, which shifts every entry's time by the same number of hours;
- pick a date, which re-dates every entry in its own zone.

The list can be shared as a link:

```
origin?date=YYYY-MM-DD&timezones=Z1:HH:mm:ss,...
```

A meeting link can be opened for the first entry.

The repository has two copies of the component:

- `TimeZoneConverter.jsx`: the one `App.js` mounts.
- `TimeZoneConverterr.jsx`: an unused duplicate.

The two copies change the list the same way in every handler but one, the
slider handler. The mounted one sets only the moved slider, and the
duplicate adds the move to every slider. Apart from the list, the copies
also differ in presentation and points:
- only the mounted copy sets dark mode from the slider and keeps tooltip state;
- several handlers update the points counter at different places in the two copies.

## What the model is

- `Clock` holds the calendar records and the timezone library. `Stamp` is
  the stored wall-clock string as a record with range-checked fields.
  `Library` is moment-timezone as a record of functions. Every operation
  takes it as a parameter, so every result is stated through the exact
  chain of library calls the handler makes:
  - `parse` is `moment(string)`, which reads the string in the browser's zone;
  - `wall` is `.tz(z).format(...)`;
  - `addHours` is `.add(h, 'hours')`;
  - `setDate` is `.date().month().year()`.

  Nothing about the library is assumed globally. A lemma that needs it to
  behave like a clock names the law it relies on, as a `requires`. The laws
  are `ReparsesOwnOutput`, `ParsesBack`, `AdditiveHours`, `HourShift`,
  `AheadBy` and `DatePreserving`. Each speaks only of values moment
  produces:
  - `ReparsesOwnOutput` covers only readings the browser's clock prints,
    not every record: an impossible date such as February 31, or a time
    skipped by a daylight-saving jump, is not read back as itself.
  - `ParsesBack` covers only instants reached by reading a stored string
    and adding whole hours. These are whole seconds, which is all that
    `HH:mm:ss` prints.
  - `AdditiveHours` says adding h hours adds exactly h * 3 600 000
    milliseconds, which is how moment adds hours.
  - `HourShift(lib, z)` says zone z's wall-clock hour moves by h modulo 24
    when h hours are added. That is true of UTC and of any zone that keeps
    one offset, and false across a daylight-saving jump.
  - `Shows` says a stamp is a reading a zone's clock actually shows.
    `Converter.StepKeepsOnClock` proves that every time a transition
    stores is such a reading.
- `Text` and `Format` hold moment's zero-fill and the patterns
  `HH:mm:ss`, `YYYY-MM-DD` and `YYYY-MM-DDTHH:mm:ss`. They also hold
  JavaScript's `join` and a `split` that undoes it. Each format has a
  reader with a proved round trip.
- `ZoneList` holds the transitions both components share: select, delete
  (the position filter), drag-reorder (the two splices, including
  `splice`'s clamping of a destination past the end), reverse and date change.
- `Slider` holds the two slider handlers as separate functions, `MoveOne`
  (mounted) and `MoveAll` (duplicate). It also proves how the two differ.
- `Link` holds `getShareableLink` and the meeting link. It also holds a
  decoder that serves as the reference for the link format. The
  application itself never reads the link back.
- `Converter` holds the session: the initial state, one `Step` per user
  event for either component, `Run` over a sequence of events, and an
  invariant. The invariant says that every reachable state's link reads
  back as its list.

A time stored for a zone other than the browser's is read back by
`moment(string)` as if it were browser-local. The model keeps that step as
written, and two lemmas show what it does:
- `Slider.StillSliderDrifts`: a slider move of zero hours still moves such
  an entry's clock by the gap between its zone and the browser's.
- `Link.MeetingStartDrifts`: the meeting link's UTC start is off by the
  same gap.

The slider and date lemmas that need exact times are therefore stated only
for entries in the browser's zone.

## Behaviour the model keeps as written

Some of the code's behaviour is easy to mistake for something else. The
model keeps each of these cases exactly as the code behaves:

- Deleting an out-of-range index is not an error. `filter` matches nothing,
  so the list is unchanged (`ZoneList.DeleteZoneSplices`).
- Selecting a zone does not validate it. The zone comes from the library's
  own list of names.
- The slider does not recompute every slider from its entry's new time:
  - the mounted component leaves the other sliders where they were, so they
    fall out of step with their clocks (`Slider.MoveOneStrandsOtherSliders`);
  - the duplicate adds `diff` to every slider, with no wrap and no clamp
    (`Slider.MoveAllLeavesDialRange`).
- Times are kept as formatted strings and re-parsed. They are not kept as
  absolute instants.
- A stored empty list is used as is. It is not replaced by the default
  pair, because `[]` is truthy (`Converter.InitialZones`).
- The meeting link reads only the first entry's stored string, in the
  browser's zone. It ignores that entry's own zone (`Link.MeetingLinkOnlyFirst`).
  So the start is off by that zone's gap from the browser's (`Link.MeetingStartDrifts`).
- A slider move of zero hours is not a no-op. Every entry outside the
  browser's zone is re-read as browser-local, so its clock moves
  (`Slider.StillSliderDrifts`).

## Model

| member | source | states |
|---|---|---|
| ZoneList.FreshEntry | src/components/TimeZoneConverter.jsx:78-79 | a newly selected entry has the chosen zone, its time is the current moment in that zone, and its slider shows that time's hour |
| ZoneList.SelectZone | src/components/TimeZoneConverter.jsx:76-82 | selecting appends exactly one entry at the end, with the chosen zone, the current moment on that zone's clock as its time, and that time's hour on its slider; every earlier entry is untouched |
| ZoneList.DeleteUndoesSelect | src/components/TimeZoneConverterr.jsx:72-83 | deleting the position just appended gives back the list as it was before the selection |
| ZoneList.DeleteZone | src/components/TimeZoneConverter.jsx:84-87 | the position filter shortens the list by one exactly when the index names an entry, and otherwise keeps its length |
| ZoneList.DeleteZoneSplices | src/components/TimeZoneConverter.jsx:84-87 | deleting an in-range index leaves every other entry in its original order and drops only that entry; any other index leaves the list unchanged |
| ZoneList.DeleteZoneDropsOne | src/components/TimeZoneConverterr.jsx:80-83 | deleting an in-range index removes exactly one copy of that entry from the multiset of entries |
| ZoneList.RemoveAt | src/components/TimeZoneConverter.jsx:178 | `splice(i, 1)` shortens the list by one and removes exactly the entry at i from its multiset |
| ZoneList.InsertAt | src/components/TimeZoneConverter.jsx:179 | `splice(i, 0, e)` lengthens the list by one and adds exactly e to its multiset |
| ZoneList.InsertLands | src/components/TimeZoneConverter.jsx:178-179 | the spliced-in entry sits at its landing index (the destination, or the end when the destination is past it), and removing it there restores the list |
| ZoneList.Reorder | src/components/TimeZoneConverter.jsx:175-181 | with no destination the list is unchanged; otherwise the result is a permutation of the same length, the dragged entry lands at the destination, and all other entries keep their relative order |
| ZoneList.ReorderInPlace | src/components/TimeZoneConverterr.jsx:175-180 | dropping an entry where it was picked up leaves the list unchanged |
| ZoneList.ReorderUndo | src/components/TimeZoneConverterr.jsx:175-180 | dragging from s to d and then from d back to s restores the list |
| ZoneList.ReverseZones | src/components/TimeZoneConverter.jsx:132-135 | reversing keeps the length and puts entry k at position n-1-k |
| ZoneList.ReverseInvolution | src/components/TimeZoneConverter.jsx:133 | reversing twice gives the list back |
| ZoneList.ReversePermutes | src/components/TimeZoneConverterr.jsx:127-129 | reversing keeps the multiset of entries |
| ZoneList.ChangeDate | src/components/TimeZoneConverter.jsx:107-119 | the date change keeps the length, the order, and every entry's zone and slider; each time is re-dated in the entry's own zone |
| ZoneList.ChangeDateSetsDate | src/components/TimeZoneConverter.jsx:111-117 | if the library's setter keeps the time of day, every entry ends on the picked date with the time of day of its re-read time |
| ZoneList.ChangeDateKeepsBrowserZoneTime | src/components/TimeZoneConverterr.jsx:101-113 | a browser-zone entry whose time is a reading its clock shows keeps that time of day through a date change, and its slider stays in step |
| Slider.MoveOne | src/components/TimeZoneConverter.jsx:89-99 | fails exactly when the index names no entry; otherwise keeps length, order and zones, sets the moved slider to `value`, leaves every other slider alone, and shifts every entry's time by the same `value - prev[index].sliderValue` hours |
| Slider.MoveAll | src/components/TimeZoneConverterr.jsx:85-95 | fails exactly when the index names no entry; otherwise keeps length, order and zones, shifts every time by the same diff, lands the moved slider on `value`, and keeps every gap between two sliders |
| Slider.VariantsDifferOnlyInOtherSliders | src/components/TimeZoneConverterr.jsx:87-90 | the two components produce the same zones, times and moved slider; every other slider differs by exactly diff; with one entry the results are equal |
| Slider.MoveAllLeavesDialRange | src/components/TimeZoneConverterr.jsx:90 | the duplicate does not clamp: moving a slider from 0 to 5 takes a slider at 20 to 25, outside 0..23 |
| Slider.StillSliderKeepsSliders | src/components/TimeZoneConverter.jsx:91-94 | a move to the slider's current value leaves every slider value unchanged, in both components |
| Slider.StillSliderKeepsBrowserZoneEntries | src/components/TimeZoneConverter.jsx:95-98 | with a library that reads back its own readings and adds 0 hours as nothing, a move to the current value leaves unchanged every browser-zone entry whose time is a reading its clock shows |
| Slider.StillSliderDrifts | src/components/TimeZoneConverter.jsx:89-99 | a move to the current value still moves the clock of an entry whose zone is o hours ahead of the browser's by o hours, in both components; unless o is a whole number of days, the entry changes |
| Slider.StillShiftDrifts | src/components/TimeZoneConverterr.jsx:91-94 | the zero shift reads an entry's string as browser-local and prints it in the entry's zone, so its hour moves by the gap between the two zones |
| Slider.ShiftsCompose | src/components/TimeZoneConverterr.jsx:91-94 | under `ParsesBack` and `AdditiveHours`, two successive shifts of a browser-zone entry by a and b equal one shift by a + b |
| Slider.MoveOneUndo | src/components/TimeZoneConverter.jsx:89-99 | moving a slider and moving it back restores every slider and every zone, and restores outright every browser-zone entry whose time is a clock reading |
| Slider.MoveAllUndo | src/components/TimeZoneConverterr.jsx:85-95 | the same undo for the duplicate: all sliders return, and browser-zone entries holding clock readings are restored outright |
| Slider.ShiftUndo | src/components/TimeZoneConverterr.jsx:91-94 | under `ReparsesOwnOutput`, `ParsesBack` and `AdditiveHours`, shifting a browser-zone entry holding a clock reading by diff and then by -diff gives its stored time back |
| Slider.ShiftedHour | src/components/TimeZoneConverter.jsx:95-98 | when the browser zone keeps one offset (`HourShift` of the browser zone), shifting a browser-zone entry by diff hours moves its clock's hour by diff modulo 24 |
| Slider.MoveOneStrandsOtherSliders | src/components/TimeZoneConverter.jsx:91-98 | when the browser zone keeps one offset (`HourShift`), in the mounted component the moved browser-zone slider stays in step with its clock, while every other in-step browser-zone slider falls out of step unless diff is a multiple of 24 |
| Slider.MoveAllKeepsSlidersInStepModDay | src/components/TimeZoneConverterr.jsx:87-94 | when the browser zone keeps one offset (`HourShift`), in the duplicate every browser-zone slider holding a clock reading still matches its clock's hour modulo 24 after a move |
| Format.FormatTime | src/components/TimeZoneConverter.jsx:162 | `HH:mm:ss` is always eight characters of digits and colons |
| Format.FormatDate | src/components/TimeZoneConverter.jsx:163 | `YYYY-MM-DD` is ten characters for the years 0 through 9999 |
| Format.TimeRoundTrip | src/components/TimeZoneConverterr.jsx:160 | reading a printed `HH:mm:ss` gives the time of day back |
| Format.DateRoundTrip | src/components/TimeZoneConverterr.jsx:161 | reading a printed `YYYY-MM-DD` gives the date back, for non-negative years |
| Format.IsoRoundTrip | src/components/TimeZoneConverter.jsx:144 | reading a printed `YYYY-MM-DDTHH:mm:ss` gives the wall clock back |
| Text.SplitJoin | src/components/TimeZoneConverter.jsx:162 | `join(',')` loses nothing: splitting the joined text recovers the segments when none contains the separator |
| Link.Segment | src/components/TimeZoneConverter.jsx:162 | a zone segment is the zone, a colon, and an eight-character time |
| Link.ShareableLink | src/components/TimeZoneConverter.jsx:157-166 | the link is exactly the origin when, and only when, the list is empty |
| Link.SegmentRoundTrip | src/components/TimeZoneConverterr.jsx:160 | a segment of a separator-free zone reads back as that zone and its link time, and contains no `,` or `&` |
| Link.DecodeEach | src/components/TimeZoneConverterr.jsx:160 | segments that each decode to a zone time decode together to exactly those zone times, in order |
| Link.SegmentsRoundTrip | src/components/TimeZoneConverterr.jsx:160 | the segments of a list read back as its zones and link times, one per entry, in list order |
| Link.QuerySplits | src/components/TimeZoneConverter.jsx:163 | a query `?date=A&timezones=J` with no `&` in A or J starts with `?date=` and splits at its one `&` into A and `timezones=` plus J |
| Link.QueryRoundTrip | src/components/TimeZoneConverter.jsx:163 | the query of a non-empty link, built from the printed date and separator-free segments, reads back as that date and the decoded segments |
| Link.LinkRoundTrip | src/components/TimeZoneConverter.jsx:157-166 | decoding a shareable link gives no date and no zones for an empty list, and otherwise the picked date and every zone in list order with the time the link shows |
| Link.LinkShowsStoredTimes | src/components/TimeZoneConverterr.jsx:160 | with a library that reads back its own readings, the link shows each entry's stored time of day, for stored times the browser's clock can show |
| Link.MeetingLink | src/components/TimeZoneConverter.jsx:137-146 | no meeting link is built exactly when the list is empty; otherwise the link starts with the meeting URL prefix |
| Link.MeetingLinkOnlyFirst | src/components/TimeZoneConverterr.jsx:134-141 | two non-empty lists whose first entries have the same stored time get the same meeting link, whatever their zones, sliders and later entries |
| Link.MeetingStartReadsBack | src/components/TimeZoneConverter.jsx:144 | the start time in the meeting link reads back as the first entry's time printed in UTC |
| Link.MeetingStartDrifts | src/components/TimeZoneConverter.jsx:144 | for an entry showing moment t on the clock of a zone oz hours ahead of the browser's, the meeting starts at t's UTC hour plus oz; unless oz is a whole number of days, the start is not t in UTC |
| Converter.InitialZones | src/components/TimeZoneConverterr.jsx:13-19 | a stored list, even an empty one, is used as is; with nothing stored the list is exactly UTC then Asia/Kolkata, each at the current moment with an in-step slider |
| Converter.Initial | src/components/TimeZoneConverter.jsx:13-23 | the starting date is the stored date, or else today's date in the browser's zone |
| Converter.Step | src/components/TimeZoneConverter.jsx:76-181 | an event fails exactly for a slider index with no entry or a drag whose source has no entry; only a picked date changes the date |
| Converter.StepKeepsWellFormed | src/components/TimeZoneConverter.jsx:76-181 | every transition keeps all zone names link-safe and the date unsigned, given link-safe selections and picked dates |
| Converter.RunKeepsWellFormed | src/components/TimeZoneConverterr.jsx:72-182 | every state a run of safe events reaches from a well-formed state is well-formed |
| Converter.StepKeepsOnClock | src/components/TimeZoneConverter.jsx:76-181 | every transition keeps each stored time a reading its own zone's clock shows: new times are printed by the clock, and the other transitions only move or drop entries |
| Converter.RunKeepsOnClock | src/components/TimeZoneConverterr.jsx:72-182 | every state a run reaches from a list of clock readings holds only clock readings |
| Converter.DefaultIsWellFormed | src/components/TimeZoneConverter.jsx:15-18 | the default pair of zones is link-safe |
| Converter.DefaultLinkReadsBack | src/components/TimeZoneConverter.jsx:15-18 | the default list's shareable link reads back as UTC then Asia/Kolkata on the picked date; with a UTC browser, the first time is the current UTC time of day |
| Converter.SessionLinkReadsBack | src/components/TimeZoneConverterr.jsx:154-164 | in every state either component reaches, the shareable link decodes to the list's zones in order with their link times and the picked date |

## Left out

- moment-timezone itself is left out because it is a foreign library:
  tz-database offsets, parsing in the browser's zone, `.tz()` conversion, and
  the setters' day rollover. It is the `Library` parameter, and its
  behaviour appears only as named laws in the `requires` of lemmas.
- `.hours()` is taken as the hour of the same moment's wall clock, not as a
  separate library call.
- `handleSelectTimeZone` calls `moment()` twice, once for the time and once
  for the slider. The default list calls it four times, twice per entry. The
  model reads the clock once per list, as one `now`. So a new entry's time and
  slider see the same moment, and so do the UTC and Asia/Kolkata default
  entries.
- React state, hooks and rendering are left out as UI. So are the drag
  gesture library, the DatePicker, tooltips, and the slider labels
  (`formatSliderLabel`, `sliderLabelPositions`).
- The localStorage reads and writes are left out as I/O. The stored list and
  date are parameters of `Converter.Initial`, and a JSON parse failure is not
  modelled.
- `navigator.clipboard` (`handleCopyShareableLink`), `window.open` and `alert`
  are left out as I/O. `MeetingLink` returns the URL, and `None` stands for the alert.
- Dark mode, the slider-driven `setDarkMode` and the points counter are left
  out as presentation and gamification state. This includes where the two
  copies order their point updates.
- Search filtering over `moment.tz.names()` and `updateSuggestions` are left
  out because they depend on the library's name list and are UI glue.
- `src/App.js` is left out because it only mounts the first component.
- ZoneList.ChangeDateSetsDate: proved only under `DatePreserving`. That law
  ignores moment's setter order: `.date(d)` is applied before `.month(m)`, so a
  day beyond the current month's length rolls over. It also fails when the
  kept time of day falls in the picked date's daylight-saving gap: 02:30 on
  a spring-forward date becomes 03:30.
- ZoneList.ChangeDateKeepsBrowserZoneTime: stated only for browser-zone
  entries whose time is a reading the clock shows. Other entries are
  re-read as browser-local; `Slider.StillSliderDrifts` shows the effect of
  that re-read for the slider.
- Slider.StillSliderKeepsBrowserZoneEntries: stated only for browser-zone
  entries holding clock readings, for the same reason.
- Slider.MoveOneUndo: times are restored only for browser-zone entries
  holding clock readings, and only under the round-trip and additive-hours
  laws. The law `ParsesBack` fails in the repeated hour of a daylight-saving
  fold, where moment reads the string as the first of the two instants.
- Slider.MoveAllUndo: the same restriction as `MoveOneUndo`.
- Link.LinkShowsStoredTimes: needs every stored time to be a reading the
  browser's clock can show. A stored time that falls in the browser zone's
  daylight-saving gap is moved by the re-read.
- Slider.StillSliderDrifts: needs a fixed hour gap between the entry's zone
  and the browser's (`AheadBy`), so it says nothing across an offset change.
  `AheadBy` compares only the hour fields, so it also needs a whole-hour gap.
  Against a whole-hour browser zone, Asia/Kolkata (+5:30) has an hour gap that
  alternates between 5 and 6. So the lemma says nothing about the default
  list's second entry.
- Link.MeetingStartDrifts: needs the same fixed whole-hour gaps, for the
  entry's zone and for UTC. For the same reason it says nothing about a
  half-hour zone such as Asia/Kolkata.
- Slider.MoveOneStrandsOtherSliders: needs the browser zone to keep one
  offset (`HourShift(lib, lib.browserZone)`). That holds for UTC or a zone
  without daylight saving, and says nothing across a daylight-saving jump.
- Slider.ShiftedHour: needs the same `HourShift` of the browser zone.
- Slider.MoveAllKeepsSlidersInStepModDay: needs the same `HourShift` of the
  browser zone. Across a spring-forward gap it fails: a slider at 1 moved by
  +2 goes to 3 while the clock shows 04:00.
- Slider.ShiftsCompose: needs `ParsesBack`, which fails in the repeated hour
  of a daylight-saving fold: 03:00 shifted by -2 and then by +2 gives 02:00.
- Slider.ShiftUndo: needs `ParsesBack` as well, and fails in the same fold.
- Link.LinkRoundTrip: needs zone names without `,`, `:` or `&`, as every IANA
  name is. It also needs a non-negative year, because moment prints a
  negative year with a sign.
- Converter.Step: a slider index with no entry throws in the source, and the
  model returns `None` for it. A drag whose source has no entry would insert
  `undefined`; that is also `None`, and the list holding `undefined` is not
  modelled.
- Converter.SessionLinkReadsBack: holds only for runs whose selected zones
  are link-safe and whose picked dates have non-negative years.

=== FILE: clock.dfy ===
/**
 The calendar vocabulary of the converter and the timezone library it calls.

 Every entry keeps its time as a formatted wall-clock string
 'YYYY-MM-DD HH:mm:ss'; here that string is the record `Stamp`, whose fields
 are range-checked by their types. The library (moment-timezone) is not
 modelled: it is a record of functions handed to every operation, so each
 result is stated in terms of the library calls the handler makes. Lemmas
 that need the library to behave like a clock name the law they rely on.
 */
module Clock {

  /** An IANA zone identifier such as "Asia/Kolkata". */
  type Zone = string

  type Month = m: int | 1 <= m <= 12 witness 1
  type Day = d: int | 1 <= d <= 31 witness 1
  type Hour = h: int | 0 <= h < 24
  type Minute = m: int | 0 <= m < 60
  type Second = s: int | 0 <= s < 60

  /** An absolute moment, as moment keeps it: milliseconds since the Unix epoch. */
  type Instant = int

  datatype CalDate = CalDate(year: int, month: Month, day: Day)

  datatype TimeOfDay = TimeOfDay(hour: Hour, minute: Minute, second: Second)

  /** A wall-clock reading, the value of the pattern 'YYYY-MM-DD HH:mm:ss'. */
  datatype Stamp = Stamp(date: CalDate, time: TimeOfDay)

  predicate IsLeapYear(y: int) {
    (y % 4 == 0 && y % 100 != 0) || y % 400 == 0
  }

  function DaysInMonth(y: int, m: Month): (n: int)
    ensures 28 <= n <= 31
  {
    if m == 2 then (if IsLeapYear(y) then 29 else 28)
    else if m == 4 || m == 6 || m == 9 || m == 11 then 30
    else 31
  }

  /** A date a date picker can produce: the day exists in its month. */
  predicate ValidDate(d: CalDate) {
    d.day <= DaysInMonth(d.year, d.month)
  }

  /**
   The timezone library as the converter uses it:
   - browserZone: the zone of the browser, in which `moment(string)` reads a
     string that carries no offset;
   - parse: `moment(s)` for a stored wall-clock string s;
   - wall: `.tz(z).format('YYYY-MM-DD HH:mm:ss')`, the wall clock of an
     instant in zone z;
   - addHours: `.add(h, 'hours')`;
   - setDate: `.tz(z).date(d).month(m).year(y)`, the picked calendar date
     written into the zone-z calendar of an instant.
   */
  datatype Library = Library(
    browserZone: Zone,
    parse: Stamp -> Instant,
    wall: (Instant, Zone) -> Stamp,
    addHours: (Instant, int) -> Instant,
    setDate: (Instant, Zone, CalDate) -> Instant
  )

  /** `.tz(z).hours()`: the hour the same moment shows in zone z. */
  function HourOf(lib: Library, t: Instant, z: Zone): Hour {
    lib.wall(t, z).time.hour
  }

  // Laws a well-behaved library satisfies. None is assumed globally; each
  // lemma that needs one names it.

  /**
   `s` is a reading zone z's clock actually shows at some moment: a real
   calendar day, and not a time skipped by a daylight-saving jump. Every
   stamp the converter stores was printed this way.
   */
  ghost predicate Shows(lib: Library, z: Zone, s: Stamp) {
    exists t: Instant :: lib.wall(t, z) == s
  }

  /** Whatever a zone's clock prints is a reading it shows. */
  lemma ShowsWall(lib: Library, t: Instant, z: Zone)
    ensures Shows(lib, z, lib.wall(t, z))
  {
    assert lib.wall(t, z) == lib.wall(t, z);
  }

  /** Reading a browser-zone clock reading and printing it in the browser zone gives it back. */
  ghost predicate ReparsesOwnOutput(lib: Library) {
    forall t: Instant {:trigger lib.parse(lib.wall(t, lib.browserZone))} ::
      lib.wall(lib.parse(lib.wall(t, lib.browserZone)), lib.browserZone) == lib.wall(t, lib.browserZone)
  }

  /**
   An instant reached by reading a stored string and adding whole hours is
   whole seconds, so printing it in the browser zone and reading it back
   gives it back (moment's one exception is the repeated hour of a
   daylight-saving fold, which this law leaves out).
   */
  ghost predicate ParsesBack(lib: Library) {
    forall s: Stamp, h: int {:trigger lib.parse(lib.wall(lib.addHours(lib.parse(s), h), lib.browserZone))} ::
      lib.parse(lib.wall(lib.addHours(lib.parse(s), h), lib.browserZone)) == lib.addHours(lib.parse(s), h)
  }

  /** Under ReparsesOwnOutput a browser-zone clock reading survives a read and a print. */
  lemma Reparses(lib: Library, s: Stamp)
    requires ReparsesOwnOutput(lib) && Shows(lib, lib.browserZone, s)
    ensures lib.wall(lib.parse(s), lib.browserZone) == s
  {
    var t :| lib.wall(t, lib.browserZone) == s;
  }

  /**
   Zone z's clock is `o` hours ahead of the browser's, modulo a day, at
   every moment: a fixed offset between the two zones.
   */
  ghost predicate AheadBy(lib: Library, z: Zone, o: int) {
    forall t: Instant :: lib.wall(t, z).time.hour == (lib.wall(t, lib.browserZone).time.hour + o) % 24
  }

  /** The milliseconds in an hour. */
  const HourMillis: int := 3_600_000

  /**
   `.add(h, 'hours')` adds h hours of elapsed time, whatever the clocks show:
   exactly h * 3600000 milliseconds.
   */
  ghost predicate AdditiveHours(lib: Library) {
    forall t: Instant, h: int :: lib.addHours(t, h) == t + h * HourMillis
  }

  /**
   Adding h hours moves zone z's wall-clock hour by h, modulo 24: z keeps one
   offset from UTC (as UTC itself, or a zone without daylight saving, does).
   */
  ghost predicate HourShift(lib: Library, z: Zone) {
    forall t: Instant, h: int :: lib.wall(lib.addHours(t, h), z).time.hour == (lib.wall(t, z).time.hour + h) % 24
  }

  /** Setting a real calendar date replaces the date and keeps the time of day in that zone. */
  ghost predicate DatePreserving(lib: Library) {
    forall t: Instant, z: Zone, d: CalDate | ValidDate(d) :: lib.wall(lib.setDate(t, z, d), z) == Stamp(d, lib.wall(t, z).time)
  }

  lemma AddHoursCompose(lib: Library, t: Instant, a: int, b: int)
    requires AdditiveHours(lib)
    ensures lib.addHours(t, 0) == t
    ensures lib.addHours(lib.addHours(t, a), b) == lib.addHours(t, a + b)
  {
    assert lib.addHours(lib.addHours(t, a), b) == t + a * HourMillis + b * HourMillis;
  }

  /** Moving an hour of the day by an amount that is not a whole number of days changes it. */
  lemma HourMoves(h: Hour, o: int)
    requires o % 24 != 0
    ensures (h + o) % 24 != h
  {
  }

  /** Adding two amounts to an hour, each modulo a day, does not depend on their order. */
  lemma ModSwap(b: int, x: int, y: int)
    ensures ((b + x) % 24 + y) % 24 == ((b + y) % 24 + x) % 24
  {
    assert ((b + x) % 24 + y) % 24 == (b + x + y) % 24;
    assert ((b + y) % 24 + x) % 24 == (b + x + y) % 24;
  }
}

=== FILE: converter.dfy ===
/**
 The converter session: the list and the picked date, the initial list, and
 one transition per user event. `Live` is the mounted component, whose
 slider sets only the moved slider; `Duplicate` is the unused copy, whose
 slider adds the move to every slider. Everything else is shared.
 */
module Converter {
  import opened Wrappers
  import opened Clock
  import opened ZoneList
  import opened Slider
  import opened Link

  datatype Variant = Live | Duplicate

  /** The user events the core handles; `at` is the moment the clock reads when a zone is selected. */
  datatype Event =
    | SelectTz(zone: Zone, at: Instant)
    | DeleteTz(index: int)
    | MoveSlider(index: int, value: int)
    | PickDate(date: CalDate)
    | ReverseList
    | DragEnd(source: nat, destination: Option<nat>)

  datatype State = State(zones: seq<Entry>, date: CalDate)

  /**
   The list the component starts with: the stored list whenever one was
   stored, even an empty one, else UTC and Asia/Kolkata at the current moment.
   */
  function InitialZones(lib: Library, now: Instant, stored: Option<seq<Entry>>): (zs: seq<Entry>)
    ensures stored.Some? ==> zs == stored.value
    ensures stored.None? ==>
              && |zs| == 2 && zs[0].timezone == "UTC" && zs[1].timezone == "Asia/Kolkata"
              && (forall k :: 0 <= k < 2 ==> Coherent(zs[k]) && zs[k].currentTime == lib.wall(now, zs[k].timezone))
              && (forall k :: 0 <= k < 2 ==> OnClock(lib, zs[k]))
  {
    match stored
    case Some(zs) => zs
    case None => [FreshEntry(lib, now, "UTC"), FreshEntry(lib, now, "Asia/Kolkata")]
  }

  /** The starting state: the stored date, else today's date in the browser's zone. */
  function Initial(lib: Library, now: Instant, stored: Option<seq<Entry>>, storedDate: Option<CalDate>): (s: State)
    ensures s.zones == InitialZones(lib, now, stored)
    ensures storedDate.Some? ==> s.date == storedDate.value
    ensures storedDate.None? ==> s.date == lib.wall(now, lib.browserZone).date
  {
    var d := match storedDate case Some(d) => d case None => lib.wall(now, lib.browserZone).date;
    State(InitialZones(lib, now, stored), d)
  }

  /**
   One event. `None` is an event the component cannot survive: a slider
   index with no entry throws, and a drag whose source has no entry would
   put `undefined` into the list.
   */
  function Step(v: Variant, lib: Library, s: State, ev: Event): (r: Option<State>)
    ensures r.None? <==>
              || (ev.MoveSlider? && !(0 <= ev.index < |s.zones|))
              || (ev.DragEnd? && ev.destination.Some? && |s.zones| <= ev.source)
    ensures r.Some? && !ev.PickDate? ==> r.value.date == s.date
    ensures r.Some? && ev.PickDate? ==> r.value.date == ev.date
  {
    match ev
    case SelectTz(zone, at) => Some(s.(zones := SelectZone(lib, at, s.zones, zone)))
    case DeleteTz(i) => Some(s.(zones := DeleteZone(s.zones, i)))
    case MoveSlider(i, value) =>
      var moved := if v == Live then MoveOne(lib, s.zones, i, value) else MoveAll(lib, s.zones, i, value);
      if moved.None? then None else Some(s.(zones := moved.value))
    case PickDate(d) => Some(State(ChangeDate(lib, s.zones, d), d))
    case ReverseList => Some(s.(zones := ReverseZones(s.zones)))
    case DragEnd(src, dst) =>
      if dst.Some? && |s.zones| <= src then None else Some(s.(zones := Reorder(s.zones, src, dst)))
  }

  /** A run of events; it stops at the first event the component cannot survive. */
  function Run(v: Variant, lib: Library, s: State, evs: seq<Event>): Option<State>
    decreases |evs|
  {
    if |evs| == 0 then Some(s)
    else
      match Step(v, lib, s, evs[0])
      case None => None
      case Some(s') => Run(v, lib, s', evs[1..])
  }

  /** Every zone can be written into a shareable link, and the date prints without a sign. */
  predicate WellFormed(s: State) {
    && (forall k :: 0 <= k < |s.zones| ==> LinkSafe(s.zones[k].timezone))
    && 0 <= s.date.year
  }

  /** Zones come from the IANA list and dates from the date picker. */
  predicate SafeEvent(ev: Event) {
    && (ev.SelectTz? ==> LinkSafe(ev.zone))
    && (ev.PickDate? ==> 0 <= ev.date.year)
  }

  /** A list whose multiset of entries lies within another's holds only entries of that list. */
  lemma EntriesFrom(r: seq<Entry>, zs: seq<Entry>)
    requires multiset(r) <= multiset(zs)
    ensures forall k :: 0 <= k < |r| ==> r[k] in zs
  {
    forall k | 0 <= k < |r|
      ensures r[k] in zs
    {
      assert r[k] in multiset(r);
      assert r[k] in multiset(zs);
    }
  }

  /** Every transition keeps a well-formed state well-formed. */
  lemma StepKeepsWellFormed(v: Variant, lib: Library, s: State, ev: Event)
    requires WellFormed(s) && SafeEvent(ev) && Step(v, lib, s, ev).Some?
    ensures WellFormed(Step(v, lib, s, ev).value)
  {
    var r := Step(v, lib, s, ev).value;
    match ev
    case SelectTz(zone, at) =>
      forall k | 0 <= k < |r.zones|
        ensures LinkSafe(r.zones[k].timezone)
      {
        if k < |s.zones| {
          assert r.zones[k] == s.zones[k];
        }
      }
    case DeleteTz(i) =>
      if 0 <= i < |s.zones| {
        DeleteZoneDropsOne(s.zones, i);
        LinkSafeFrom(r.zones, s.zones);
      } else {
        DeleteZoneSplices(s.zones, i);
      }
    case MoveSlider(i, value) =>
    case PickDate(d) =>
    case ReverseList =>
      ReversePermutes(s.zones);
      LinkSafeFrom(r.zones, s.zones);
    case DragEnd(src, dst) =>
      LinkSafeFrom(r.zones, s.zones);
  }

  /** Moving or dropping entries keeps every zone name link-safe. */
  lemma LinkSafeFrom(r: seq<Entry>, zs: seq<Entry>)
    requires multiset(r) <= multiset(zs)
    requires forall k :: 0 <= k < |zs| ==> LinkSafe(zs[k].timezone)
    ensures forall k :: 0 <= k < |r| ==> LinkSafe(r[k].timezone)
  {
    EntriesFrom(r, zs);
    forall k | 0 <= k < |r|
      ensures LinkSafe(r[k].timezone)
    {
      var j :| 0 <= j < |zs| && zs[j] == r[k];
    }
  }

  /** Every stored time is a reading its own zone's clock shows. */
  ghost predicate AllOnClock(lib: Library, zs: seq<Entry>) {
    forall k :: 0 <= k < |zs| ==> OnClock(lib, zs[k])
  }

  /**
   Every transition stores only times some clock printed: selection and the
   slider and date changes print a fresh time in the entry's own zone, and
   the other transitions only move or drop entries.
   */
  lemma StepKeepsOnClock(v: Variant, lib: Library, s: State, ev: Event)
    requires AllOnClock(lib, s.zones) && Step(v, lib, s, ev).Some?
    ensures AllOnClock(lib, Step(v, lib, s, ev).value.zones)
  {
    var r := Step(v, lib, s, ev).value;
    match ev
    case SelectTz(zone, at) =>
      SelectKeepsOnClock(lib, at, s.zones, zone);
    case DeleteTz(i) =>
      assert r.zones == DeleteZone(s.zones, i);
      if 0 <= i < |s.zones| {
        DeleteZoneDropsOne(s.zones, i);
        OnClockFrom(lib, r.zones, s.zones);
      } else {
        DeleteZoneSplices(s.zones, i);
      }
    case MoveSlider(i, value) =>
    case PickDate(d) =>
    case ReverseList =>
      ReversePermutes(s.zones);
      OnClockFrom(lib, r.zones, s.zones);
    case DragEnd(src, dst) =>
      assert r.zones == Reorder(s.zones, src, dst);
      OnClockFrom(lib, r.zones, s.zones);
  }

  /** A selection appends a clock reading and keeps every earlier entry. */
  lemma SelectKeepsOnClock(lib: Library, now: Instant, zs: seq<Entry>, zone: Zone)
    requires AllOnClock(lib, zs)
    ensures AllOnClock(lib, SelectZone(lib, now, zs, zone))
  {
    var r := SelectZone(lib, now, zs, zone);
    forall k | 0 <= k < |r|
      ensures OnClock(lib, r[k])
    {
      if k < |zs| {
        assert r[k] == r[..|zs|][k];
      }
    }
  }

  /** Moving or dropping entries keeps every stored time a clock reading. */
  lemma OnClockFrom(lib: Library, r: seq<Entry>, zs: seq<Entry>)
    requires multiset(r) <= multiset(zs) && AllOnClock(lib, zs)
    ensures AllOnClock(lib, r)
  {
    EntriesFrom(r, zs);
    forall k | 0 <= k < |r|
      ensures OnClock(lib, r[k])
    {
      var j :| 0 <= j < |zs| && zs[j] == r[k];
    }
  }

  /** A run from a state whose stored times are clock readings keeps them so. */
  lemma {:induction false} RunKeepsOnClock(v: Variant, lib: Library, s: State, evs: seq<Event>)
    requires AllOnClock(lib, s.zones)
    requires Run(v, lib, s, evs).Some?
    ensures AllOnClock(lib, Run(v, lib, s, evs).value.zones)
    decreases |evs|
  {
    if |evs| > 0 {
      StepKeepsOnClock(v, lib, s, evs[0]);
      RunKeepsOnClock(v, lib, Step(v, lib, s, evs[0]).value, evs[1..]);
    }
  }

  /** A run of safe events from a well-formed state only reaches well-formed states. */
  lemma {:induction false} RunKeepsWellFormed(v: Variant, lib: Library, s: State, evs: seq<Event>)
    requires WellFormed(s)
    requires forall i :: 0 <= i < |evs| ==> SafeEvent(evs[i])
    requires Run(v, lib, s, evs).Some?
    ensures WellFormed(Run(v, lib, s, evs).value)
    decreases |evs|
  {
    if |evs| > 0 {
      StepKeepsWellFormed(v, lib, s, evs[0]);
      RunKeepsWellFormed(v, lib, Step(v, lib, s, evs[0]).value, evs[1..]);
    }
  }

  /** The default list is well-formed, and so is a state started from it on a picked date. */
  lemma DefaultIsWellFormed(lib: Library, now: Instant, d: CalDate)
    requires 0 <= d.year
    ensures WellFormed(State(InitialZones(lib, now, None), d))
  {
    assert LinkSafe("UTC");
    assert LinkSafe("Asia/Kolkata");
  }

  /**
   The default list's link reads back as UTC then Asia/Kolkata on the picked
   date; when the browser itself runs on UTC, the first time is the current
   UTC time of day.
   */
  lemma DefaultLinkReadsBack(lib: Library, origin: string, now: Instant, d: CalDate)
    requires ReparsesOwnOutput(lib) && 0 <= d.year
    ensures var zs := InitialZones(lib, now, None);
            var r := DecodeLink(origin, ShareableLink(lib, origin, zs, d));
            && r.Some? && r.value.date == Some(d) && |r.value.zones| == 2
            && r.value.zones[0].zone == "UTC" && r.value.zones[1].zone == "Asia/Kolkata"
            && (lib.browserZone == "UTC" ==> r.value.zones[0].time == lib.wall(now, "UTC").time)
  {
    var zs := InitialZones(lib, now, None);
    DefaultIsWellFormed(lib, now, d);
    LinkRoundTrip(lib, origin, zs, d);
    if lib.browserZone == "UTC" {
      Reparses(lib, zs[0].currentTime);
    }
  }

  /**
   In every state a session reaches from a well-formed start by safe events,
   in either component, the shareable link reads back as the list's zones in
   order with the times the link shows, and the picked date.
   */
  lemma SessionLinkReadsBack(v: Variant, lib: Library, origin: string, s: State, evs: seq<Event>)
    requires WellFormed(s)
    requires forall i :: 0 <= i < |evs| ==> SafeEvent(evs[i])
    requires Run(v, lib, s, evs).Some?
    ensures var t := Run(v, lib, s, evs).value;
            DecodeLink(origin, ShareableLink(lib, origin, t.zones, t.date))
            == Some(Snapshot(if |t.zones| == 0 then None else Some(t.date), Shown(lib, t.zones)))
  {
    RunKeepsWellFormed(v, lib, s, evs);
    var t := Run(v, lib, s, evs).value;
    LinkRoundTrip(lib, origin, t.zones, t.date);
  }
}

=== FILE: format.dfy ===
/**
 The three moment format patterns the converter prints: 'HH:mm:ss' for the
 zone segments of the shareable link, 'YYYY-MM-DD' for its date, and
 'YYYY-MM-DDTHH:mm:ss' for the meeting start time. Every token is moment's
 zero-fill of the field to the token's width. Each format has a reader that
 undoes it.
 */
module Format {
  import opened Wrappers
  import opened Text
  import opened Clock

  function ClockParts(t: TimeOfDay): seq<string> {
    [ZeroFill(t.hour, 2), ZeroFill(t.minute, 2), ZeroFill(t.second, 2)]
  }

  function DateParts(d: CalDate): seq<string> {
    [ZeroFill(d.year, 4), ZeroFill(d.month, 2), ZeroFill(d.day, 2)]
  }

  /** 'HH:mm:ss': always eight characters, since every field is below 100. */
  function FormatTime(t: TimeOfDay): (s: string)
    ensures |s| == 8
    ensures forall k :: 0 <= k < |s| ==> IsDigit(s[k]) || s[k] == ':'
  {
    ZeroFillWidth(t.hour, 2);
    ZeroFillWidth(t.minute, 2);
    ZeroFillWidth(t.second, 2);
    ZeroFillParses(t.hour, 2);
    ZeroFillParses(t.minute, 2);
    ZeroFillParses(t.second, 2);
    Join3(ClockParts(t)[0], ClockParts(t)[1], ClockParts(t)[2], ':');
    Join(ClockParts(t), ':')
  }

  /** 'YYYY-MM-DD': ten characters for the years 0 through 9999. */
  function FormatDate(d: CalDate): (s: string)
    ensures 0 <= d.year < 10000 ==> |s| == 10
  {
    if 0 <= d.year < 10000 then
      assert Pow10(4) == 10000;
      ZeroFillWidth(d.year, 4);
      ZeroFillWidth(d.month, 2);
      ZeroFillWidth(d.day, 2);
      Join3(DateParts(d)[0], DateParts(d)[1], DateParts(d)[2], '-');
      Join(DateParts(d), '-')
    else
      Join(DateParts(d), '-')
  }

  /** 'YYYY-MM-DDTHH:mm:ss' */
  function FormatIso(s: Stamp): string {
    FormatDate(s.date) + "T" + FormatTime(s.time)
  }

  function ParseClock(hh: string, mm: string, ss: string): Option<TimeOfDay> {
    match (ParseNat(hh), ParseNat(mm), ParseNat(ss))
    case (Some(h), Some(m), Some(x)) =>
      if h < 24 && m < 60 && x < 60 then Some(TimeOfDay(h, m, x)) else None
    case _ => None
  }

  /** Reads 'HH:mm:ss'; fails unless there are three numeric fields in range. */
  function ParseTime(s: string): Option<TimeOfDay> {
    var p := Split(s, ':');
    if |p| != 3 then None else ParseClock(p[0], p[1], p[2])
  }

  /** Reads 'YYYY-MM-DD'; fails unless there are three numeric fields, month 1..12, day 1..31. */
  function ParseDate(s: string): Option<CalDate> {
    var p := Split(s, '-');
    if |p| != 3 then None
    else
      match (ParseNat(p[0]), ParseNat(p[1]), ParseNat(p[2]))
      case (Some(y), Some(m), Some(d)) =>
        if 1 <= m <= 12 && 1 <= d <= 31 then Some(CalDate(y, m, d)) else None
      case _ => None
  }

  /** Reads 'YYYY-MM-DDTHH:mm:ss'. */
  function ParseIso(s: string): Option<Stamp> {
    var p := Split(s, 'T');
    if |p| != 2 then None
    else
      match (ParseDate(p[0]), ParseTime(p[1]))
      case (Some(d), Some(t)) => Some(Stamp(d, t))
      case _ => None
  }

  lemma ClockPartsParse(t: TimeOfDay)
    ensures forall i :: 0 <= i < 3 ==> AllDigits(ClockParts(t)[i])
    ensures ParseClock(ClockParts(t)[0], ClockParts(t)[1], ClockParts(t)[2]) == Some(t)
  {
    ZeroFillParses(t.hour, 2);
    ZeroFillParses(t.minute, 2);
    ZeroFillParses(t.second, 2);
  }

  /** Reading a printed time of day gives it back. */
  lemma TimeRoundTrip(t: TimeOfDay)
    ensures ParseTime(FormatTime(t)) == Some(t)
  {
    var p := ClockParts(t);
    ClockPartsParse(t);
    forall i | 0 <= i < 3
      ensures ':' !in p[i]
    {
      DigitsAvoid(p[i], ':');
    }
    SplitJoin(p, ':');
  }

  lemma DatePartsDigits(d: CalDate)
    requires 0 <= d.year
    ensures forall i :: 0 <= i < 3 ==> AllDigits(DateParts(d)[i])
  {
    ZeroFillParses(d.year, 4);
    ZeroFillParses(d.month, 2);
    ZeroFillParses(d.day, 2);
  }

  /** Reading a printed date gives it back, for the years moment prints without a sign. */
  lemma DateRoundTrip(d: CalDate)
    requires 0 <= d.year
    ensures ParseDate(FormatDate(d)) == Some(d)
  {
    var p := DateParts(d);
    DatePartsDigits(d);
    forall i | 0 <= i < 3
      ensures '-' !in p[i]
    {
      DigitsAvoid(p[i], '-');
    }
    SplitJoin(p, '-');
    ZeroFillParses(d.year, 4);
    ZeroFillParses(d.month, 2);
    ZeroFillParses(d.day, 2);
  }

  /** A printed date holds only digits and dashes. */
  lemma DateAvoids(d: CalDate, c: char)
    requires 0 <= d.year && !IsDigit(c) && c != '-'
    ensures c !in FormatDate(d)
  {
    var p := DateParts(d);
    DatePartsDigits(d);
    forall i | 0 <= i < 3
      ensures c !in p[i]
    {
      DigitsAvoid(p[i], c);
    }
    JoinAvoids(p, '-', c);
  }

  lemma TimeAvoids(t: TimeOfDay, c: char)
    requires !IsDigit(c) && c != ':'
    ensures c !in FormatTime(t)
  {
  }

  /** Reading a printed ISO timestamp gives it back. */
  lemma IsoRoundTrip(s: Stamp)
    requires 0 <= s.date.year
    ensures ParseIso(FormatIso(s)) == Some(s)
  {
    DateAvoids(s.date, 'T');
    TimeAvoids(s.time, 'T');
    assert FormatIso(s) == Join([FormatDate(s.date), FormatTime(s.time)], 'T');
    SplitJoin([FormatDate(s.date), FormatTime(s.time)], 'T');
    DateRoundTrip(s.date);
    TimeRoundTrip(s.time);
  }
}

=== FILE: link.dfy ===
/**
 The two links the converter builds from its list: the shareable link
 `origin?date=YYYY-MM-DD&timezones=Z1:HH:mm:ss,Z2:HH:mm:ss,...` (just the
 origin when the list is empty), and the meeting link built from the first
 entry alone. The application never reads its shareable link back; the
 decoder here is the reference it is checked against.
 */
module Link {
  import opened Wrappers
  import opened Text
  import opened Clock
  import opened Format
  import opened ZoneList

  /**
   The time of day the link shows for an entry,
   `moment(tz.currentTime).format('HH:mm:ss')`: the stored string read and
   printed again, both in the browser's zone.
   */
  function LinkTime(lib: Library, e: Entry): TimeOfDay {
    lib.wall(lib.parse(e.currentTime), lib.browserZone).time
  }

  /** One `zone:HH:mm:ss` segment: the zone, a colon, and an eight-character time. */
  function Segment(lib: Library, e: Entry): (s: string)
    ensures |s| == |e.timezone| + 9 && s[..|e.timezone|] == e.timezone && s[|e.timezone|] == ':'
  {
    e.timezone + ":" + FormatTime(LinkTime(lib, e))
  }

  function Segments(lib: Library, zs: seq<Entry>): (segs: seq<string>)
    ensures |segs| == |zs|
  {
    seq(|zs|, k requires 0 <= k < |zs| => Segment(lib, zs[k]))
  }

  /** The query part of a shareable link, for the printed date and the joined zone segments. */
  function QueryOf(dateText: string, zonesText: string): string {
    "?date=" + dateText + "&timezones=" + zonesText
  }

  /** getShareableLink, for the page origin, the list and the picked date. */
  function ShareableLink(lib: Library, origin: string, zs: seq<Entry>, date: CalDate): (link: string)
    ensures |zs| == 0 <==> link == origin
  {
    if |zs| == 0 then origin
    else origin + QueryOf(FormatDate(date), Join(Segments(lib, zs), ','))
  }

  /** A zone and the time of day a link shows for it. */
  datatype ZoneTime = ZoneTime(zone: Zone, time: TimeOfDay)

  /** What a shareable link carries: the date (absent for a bare origin) and the zone times in order. */
  datatype Snapshot = Snapshot(date: Option<CalDate>, zones: seq<ZoneTime>)

  /** The snapshot a list is expected to show: its zones in order, each with its link time. */
  function Shown(lib: Library, zs: seq<Entry>): (s: seq<ZoneTime>)
    ensures |s| == |zs|
  {
    seq(|zs|, k requires 0 <= k < |zs| => ZoneTime(zs[k].timezone, LinkTime(lib, zs[k])))
  }

  /** Zone identifiers in the IANA database contain none of the link's separators. */
  predicate LinkSafe(zone: Zone) {
    ',' !in zone && ':' !in zone && '&' !in zone
  }

  function DecodeSegment(seg: string): Option<ZoneTime> {
    var p := Split(seg, ':');
    if |p| != 4 then None
    else
      match ParseClock(p[1], p[2], p[3])
      case None => None
      case Some(t) => Some(ZoneTime(p[0], t))
  }

  function DecodeSegments(segs: seq<string>): (r: Option<seq<ZoneTime>>)
    ensures r.Some? ==> |r.value| == |segs|
  {
    if |segs| == 0 then Some([])
    else
      match (DecodeSegment(segs[0]), DecodeSegments(segs[1..]))
      case (Some(z), Some(rest)) => Some([z] + rest)
      case _ => None
  }

  /** Reads the query part `?date=...&timezones=...` of a shareable link. */
  function DecodeQuery(q: string): Option<Snapshot> {
    if |q| < 6 || q[..6] != "?date=" then None
    else
      var parts := Split(q[6..], '&');
      if |parts| != 2 || |parts[1]| < 10 || parts[1][..10] != "timezones=" then None
      else
        match (ParseDate(parts[0]), DecodeSegments(Split(parts[1][10..], ',')))
        case (Some(d), Some(zts)) => Some(Snapshot(Some(d), zts))
        case _ => None
  }

  /** Reads a shareable link of the given origin back into a snapshot. */
  function DecodeLink(origin: string, link: string): Option<Snapshot> {
    if link == origin then Some(Snapshot(None, []))
    else if |origin| <= |link| && link[..|origin|] == origin then DecodeQuery(link[|origin|..])
    else None
  }

  lemma SegmentRoundTrip(lib: Library, e: Entry)
    requires LinkSafe(e.timezone)
    ensures DecodeSegment(Segment(lib, e)) == Some(ZoneTime(e.timezone, LinkTime(lib, e)))
    ensures ',' !in Segment(lib, e) && '&' !in Segment(lib, e)
  {
    var t := LinkTime(lib, e);
    var p := [e.timezone] + ClockParts(t);
    assert p[1..] == ClockParts(t);
    assert Segment(lib, e) == Join(p, ':');
    ClockPartsParse(t);
    forall i | 1 <= i < 4
      ensures ':' !in p[i]
    {
      DigitsAvoid(p[i], ':');
    }
    SplitJoin(p, ':');
    TimeAvoids(t, ',');
    TimeAvoids(t, '&');
  }

  /** Segments that each decode to their zone time decode together to the list of them, in order. */
  lemma {:induction false} DecodeEach(segs: seq<string>, zts: seq<ZoneTime>)
    requires |segs| == |zts|
    requires forall k :: 0 <= k < |segs| ==> DecodeSegment(segs[k]) == Some(zts[k])
    ensures DecodeSegments(segs) == Some(zts)
  {
    if |segs| > 0 {
      DecodeEach(segs[1..], zts[1..]);
      assert zts == [zts[0]] + zts[1..];
    }
  }

  lemma SegmentsRoundTrip(lib: Library, zs: seq<Entry>)
    requires forall k :: 0 <= k < |zs| ==> LinkSafe(zs[k].timezone)
    ensures DecodeSegments(Segments(lib, zs)) == Some(Shown(lib, zs))
  {
    var segs := Segments(lib, zs);
    var shown := Shown(lib, zs);
    forall k | 0 <= k < |zs|
      ensures DecodeSegment(segs[k]) == Some(shown[k])
    {
      SegmentRoundTrip(lib, zs[k]);
    }
    DecodeEach(segs, shown);
  }

  /** A query `?date=A&timezones=J` with no '&' in A or J splits at its one '&' into A and the zone list. */
  lemma QuerySplits(a: string, j: string)
    requires '&' !in a && '&' !in j
    ensures var q := "?date=" + a + "&timezones=" + j;
            && 6 <= |q| && q[..6] == "?date="
            && Split(q[6..], '&') == [a, "timezones=" + j]
  {
    var tail := "timezones=" + j;
    var q := "?date=" + a + "&timezones=" + j;
    assert q == "?date=" + (a + "&" + tail);
    assert q[6..] == a + "&" + tail;
    assert Join([a, tail], '&') == a + "&" + tail by {
      assert [a, tail][1..] == [tail];
    }
    SplitJoin([a, tail], '&');
  }

  /** A query whose date text reads as d and whose segments avoid the separators reads back as d and the segments. */
  lemma QueryReads(a: string, d: CalDate, segs: seq<string>)
    requires '&' !in a && ParseDate(a) == Some(d)
    requires 1 <= |segs| && DecodeSegments(segs).Some?
    requires forall k :: 0 <= k < |segs| ==> ',' !in segs[k] && '&' !in segs[k]
    ensures DecodeQuery("?date=" + a + "&timezones=" + Join(segs, ','))
            == Some(Snapshot(Some(d), DecodeSegments(segs).value))
  {
    var j := Join(segs, ',');
    JoinAvoids(segs, ',', '&');
    QuerySplits(a, j);
    var tail := "timezones=" + j;
    assert tail[..10] == "timezones=" && tail[10..] == j;
    SplitJoin(segs, ',');
  }

  /** A query built from the printed date and separator-free segments reads back as the date and the decoded segments. */
  lemma QueryRoundTrip(date: CalDate, segs: seq<string>)
    requires 0 <= date.year && 1 <= |segs|
    requires forall k :: 0 <= k < |segs| ==> ',' !in segs[k] && '&' !in segs[k]
    requires DecodeSegments(segs).Some?
    ensures DecodeQuery("?date=" + FormatDate(date) + "&timezones=" + Join(segs, ','))
            == Some(Snapshot(Some(date), DecodeSegments(segs).value))
  {
    DateAvoids(date, '&');
    DateRoundTrip(date);
    QueryReads(FormatDate(date), date, segs);
  }

  /** No segment of a list of link-safe zones holds ',' or '&'. */
  lemma SegmentsAvoid(lib: Library, zs: seq<Entry>)
    requires forall k :: 0 <= k < |zs| ==> LinkSafe(zs[k].timezone)
    ensures forall k :: 0 <= k < |zs| ==> ',' !in Segments(lib, zs)[k] && '&' !in Segments(lib, zs)[k]
  {
    forall k | 0 <= k < |zs|
      ensures ',' !in Segments(lib, zs)[k] && '&' !in Segments(lib, zs)[k]
    {
      SegmentRoundTrip(lib, zs[k]);
    }
  }

  /** A link that is the origin followed by a non-empty query is read by reading the query. */
  lemma DecodeAfterOrigin(origin: string, q: string)
    requires 0 < |q|
    ensures DecodeLink(origin, origin + q) == DecodeQuery(q)
  {
    assert (origin + q)[..|origin|] == origin;
    assert (origin + q)[|origin|..] == q;
  }

  /**
   Reading a shareable link back gives the list's zones in order, each with
   the time of day the link shows, and the picked date; a bare origin reads
   as no date and no zones.
   */
  lemma LinkRoundTrip(lib: Library, origin: string, zs: seq<Entry>, date: CalDate)
    requires forall k :: 0 <= k < |zs| ==> LinkSafe(zs[k].timezone)
    requires 0 <= date.year
    ensures DecodeLink(origin, ShareableLink(lib, origin, zs, date))
            == Some(Snapshot(if |zs| == 0 then None else Some(date), Shown(lib, zs)))
  {
    if |zs| > 0 {
      var segs := Segments(lib, zs);
      SegmentsAvoid(lib, zs);
      SegmentsRoundTrip(lib, zs);
      QueryRoundTrip(date, segs);
      DecodeAfterOrigin(origin, QueryOf(FormatDate(date), Join(segs, ',')));
    }
  }

  /** With a library that reads back what it prints, the link shows each entry's stored time of day. */
  lemma LinkShowsStoredTimes(lib: Library, zs: seq<Entry>)
    requires ReparsesOwnOutput(lib)
    requires forall k :: 0 <= k < |zs| ==> Shows(lib, lib.browserZone, zs[k].currentTime)
    ensures forall k :: 0 <= k < |zs| ==> Shown(lib, zs)[k] == ZoneTime(zs[k].timezone, zs[k].currentTime.time)
  {
    forall k | 0 <= k < |zs|
      ensures Shown(lib, zs)[k] == ZoneTime(zs[k].timezone, zs[k].currentTime.time)
    {
      Reparses(lib, zs[k].currentTime);
    }
  }

  const MeetPrefix: string := "https://meet.google.com/new?startTime="

  /** The UTC wall clock of the first entry's stored time, as the meeting link prints it. */
  function MeetingStart(lib: Library, e: Entry): Stamp {
    lib.wall(lib.parse(e.currentTime), "UTC")
  }

  /** handleScheduleMeet: no link for an empty list, else the meeting link for the first entry. */
  function MeetingLink(lib: Library, zs: seq<Entry>): (r: Option<string>)
    ensures r.Some? <==> |zs| > 0
    ensures r.Some? ==> |MeetPrefix| <= |r.value| && r.value[..|MeetPrefix|] == MeetPrefix
  {
    if |zs| == 0 then None
    else Some(MeetPrefix + FormatIso(MeetingStart(lib, zs[0])))
  }

  /**
   The meeting link depends on the first entry's stored time and nothing
   else: not on its zone, its slider, or any later entry.
   */
  lemma MeetingLinkOnlyFirst(lib: Library, zs: seq<Entry>, ws: seq<Entry>)
    requires 0 < |zs| && 0 < |ws| && zs[0].currentTime == ws[0].currentTime
    ensures MeetingLink(lib, zs) == MeetingLink(lib, ws)
  {
  }

  /**
   The meeting starts at the wrong hour for an entry outside the browser's
   zone. The entry's stored string shows the moment t on its own zone's
   clock, but it is read as a browser-local time before being converted to
   UTC, so the start is off by the gap between the two zones.
   */
  lemma MeetingStartDrifts(lib: Library, e: Entry, t: Instant, oz: int, ou: int)
    requires ReparsesOwnOutput(lib) && AheadBy(lib, e.timezone, oz) && AheadBy(lib, "UTC", ou)
    requires e.currentTime == lib.wall(t, e.timezone) && Shows(lib, lib.browserZone, e.currentTime)
    ensures MeetingStart(lib, e).time.hour == (lib.wall(t, "UTC").time.hour + oz) % 24
    ensures oz % 24 != 0 ==> MeetingStart(lib, e) != lib.wall(t, "UTC")
  {
    var p := lib.parse(e.currentTime);
    Reparses(lib, e.currentTime);
    var b := lib.wall(t, lib.browserZone).time.hour;
    assert e.currentTime.time.hour == (b + oz) % 24;
    assert lib.wall(t, "UTC").time.hour == (b + ou) % 24;
    assert lib.wall(p, "UTC").time.hour == (lib.wall(p, lib.browserZone).time.hour + ou) % 24;
    ModSwap(b, oz, ou);
    if oz % 24 != 0 {
      HourMoves(lib.wall(t, "UTC").time.hour, oz);
    }
  }

  /** The start time in the meeting link reads back as the first entry's UTC wall clock. */
  lemma MeetingStartReadsBack(lib: Library, zs: seq<Entry>)
    requires 0 < |zs| && 0 <= MeetingStart(lib, zs[0]).date.year
    ensures ParseIso(MeetingLink(lib, zs).value[|MeetPrefix|..]) == Some(MeetingStart(lib, zs[0]))
  {
    var link := MeetingLink(lib, zs).value;
    assert link[|MeetPrefix|..] == FormatIso(MeetingStart(lib, zs[0]));
    IsoRoundTrip(MeetingStart(lib, zs[0]));
  }
}

=== FILE: slider.dfy ===
/**
 The slider transition, in the two forms the two converter components give
 it. Both compute `diff = value - prev[index].sliderValue` and shift every
 entry's stored time by `diff` hours through the library. They differ in
 the slider values: the mounted component sets only the moved slider
 (`MoveOne`), the unused duplicate adds `diff` to every slider (`MoveAll`).
 An index with no entry makes `prev[index].sliderValue` throw; that is `None`.
 */
module Slider {
  import opened Wrappers
  import opened Clock
  import opened ZoneList

  /** The stored time of an entry after the shift: read, shifted by diff hours, printed in its zone. */
  function Shifted(lib: Library, e: Entry, diff: int): (s: Stamp)
    ensures Shows(lib, e.timezone, s)
  {
    ShowsWall(lib, lib.addHours(lib.parse(e.currentTime), diff), e.timezone);
    lib.wall(lib.addHours(lib.parse(e.currentTime), diff), e.timezone)
  }

  /** Every entry keeps its zone and position, and its time is shifted by the same diff. */
  ghost predicate ShiftedAll(lib: Library, zs: seq<Entry>, r: seq<Entry>, diff: int) {
    && |r| == |zs|
    && forall k :: 0 <= k < |zs| ==>
         r[k].timezone == zs[k].timezone && r[k].currentTime == Shifted(lib, zs[k], diff)
  }

  /** handleSliderChange of the mounted component. */
  function MoveOne(lib: Library, zs: seq<Entry>, index: int, value: int): (r: Option<seq<Entry>>)
    ensures r.Some? <==> 0 <= index < |zs|
    ensures r.Some? ==> ShiftedAll(lib, zs, r.value, value - zs[index].sliderValue)
    ensures r.Some? ==> r.value[index].sliderValue == value
    ensures r.Some? ==> forall k :: 0 <= k < |zs| && k != index ==> r.value[k].sliderValue == zs[k].sliderValue
    ensures r.Some? ==> forall k :: 0 <= k < |zs| ==> OnClock(lib, r.value[k])
  {
    if !(0 <= index < |zs|) then None
    else
      var diff := value - zs[index].sliderValue;
      Some(seq(|zs|, k requires 0 <= k < |zs| =>
             zs[k].(sliderValue := if k == index then value else zs[k].sliderValue,
                    currentTime := Shifted(lib, zs[k], diff))))
  }

  /** handleSliderChange of the duplicate component. */
  function MoveAll(lib: Library, zs: seq<Entry>, index: int, value: int): (r: Option<seq<Entry>>)
    ensures r.Some? <==> 0 <= index < |zs|
    ensures r.Some? ==> ShiftedAll(lib, zs, r.value, value - zs[index].sliderValue)
    ensures r.Some? ==> r.value[index].sliderValue == value
    ensures r.Some? ==> forall j, k :: 0 <= j < |zs| && 0 <= k < |zs| ==>
              r.value[j].sliderValue - r.value[k].sliderValue == zs[j].sliderValue - zs[k].sliderValue
    ensures r.Some? ==> forall k :: 0 <= k < |zs| ==> OnClock(lib, r.value[k])
  {
    if !(0 <= index < |zs|) then None
    else
      var diff := value - zs[index].sliderValue;
      Some(seq(|zs|, k requires 0 <= k < |zs| =>
             zs[k].(sliderValue := zs[k].sliderValue + diff,
                    currentTime := Shifted(lib, zs[k], diff))))
  }

  /**
   The two components agree on every zone and every time, and on the moved
   slider; each other slider differs by exactly diff. With one entry they agree outright.
   */
  lemma VariantsDifferOnlyInOtherSliders(lib: Library, zs: seq<Entry>, index: int, value: int)
    requires 0 <= index < |zs|
    ensures var one := MoveOne(lib, zs, index, value).value;
            var all := MoveAll(lib, zs, index, value).value;
            && |one| == |all|
            && (forall k :: 0 <= k < |zs| ==>
                  one[k].timezone == all[k].timezone && one[k].currentTime == all[k].currentTime)
            && one[index].sliderValue == all[index].sliderValue
            && (forall k :: 0 <= k < |zs| && k != index ==>
                  all[k].sliderValue == one[k].sliderValue + (value - zs[index].sliderValue))
            && (|zs| == 1 ==> one == all)
  {
    var one := MoveOne(lib, zs, index, value).value;
    var all := MoveAll(lib, zs, index, value).value;
    if |zs| == 1 {
      assert one[0] == all[0];
    }
  }

  /** The duplicate does not clamp: a slider at 20 moves to 25 when another goes from 0 to 5. */
  lemma MoveAllLeavesDialRange(lib: Library, a: Entry, b: Entry)
    requires a.sliderValue == 0 && b.sliderValue == 20
    ensures MoveAll(lib, [a, b], 0, 5).value[1].sliderValue == 25
  {
  }

  /** Moving a slider to where it already is leaves every slider where it was, in both components. */
  lemma StillSliderKeepsSliders(lib: Library, zs: seq<Entry>, index: int)
    requires 0 <= index < |zs|
    ensures forall k :: 0 <= k < |zs| ==>
              MoveOne(lib, zs, index, zs[index].sliderValue).value[k].sliderValue == zs[k].sliderValue
              && MoveAll(lib, zs, index, zs[index].sliderValue).value[k].sliderValue == zs[k].sliderValue
  {
  }

  /**
   With a well-behaved library, a still slider leaves every browser-zone
   entry exactly as it was. Entries of other zones are re-read in the
   browser's zone by `moment(string)`, so nothing is claimed for them.
   */
  lemma StillSliderKeepsBrowserZoneEntries(lib: Library, zs: seq<Entry>, index: int, k: nat)
    requires ReparsesOwnOutput(lib) && AdditiveHours(lib)
    requires 0 <= index < |zs| && k < |zs| && zs[k].timezone == lib.browserZone && OnClock(lib, zs[k])
    ensures MoveOne(lib, zs, index, zs[index].sliderValue).value[k] == zs[k]
    ensures MoveAll(lib, zs, index, zs[index].sliderValue).value[k] == zs[k]
  {
    StillTimeIsKept(lib, zs[k]);
  }

  /**
   A still slider does not leave an entry of another zone alone. Its stored
   string is read as a browser-local time and printed in its own zone, so its
   clock moves by the gap between the two zones, in both components.
   */
  lemma StillSliderDrifts(lib: Library, zs: seq<Entry>, index: int, k: nat, o: int)
    requires 0 <= index < |zs| && k < |zs|
    requires ReparsesOwnOutput(lib) && AdditiveHours(lib) && AheadBy(lib, zs[k].timezone, o)
    requires Shows(lib, lib.browserZone, zs[k].currentTime)
    ensures var one := MoveOne(lib, zs, index, zs[index].sliderValue).value[k];
            var all := MoveAll(lib, zs, index, zs[index].sliderValue).value[k];
            && one.currentTime.time.hour == (zs[k].currentTime.time.hour + o) % 24
            && all.currentTime == one.currentTime
            && (o % 24 != 0 ==> one != zs[k] && all != zs[k])
  {
    var one := MoveOne(lib, zs, index, zs[index].sliderValue).value;
    var all := MoveAll(lib, zs, index, zs[index].sliderValue).value;
    assert one[k].currentTime == Shifted(lib, zs[k], 0) == all[k].currentTime;
    StillShiftDrifts(lib, zs[k], o);
  }

  /** The zero shift of one entry moves its clock's hour by the gap between its zone and the browser's. */
  lemma StillShiftDrifts(lib: Library, e: Entry, o: int)
    requires ReparsesOwnOutput(lib) && AdditiveHours(lib) && AheadBy(lib, e.timezone, o)
    requires Shows(lib, lib.browserZone, e.currentTime)
    ensures Shifted(lib, e, 0).time.hour == (e.currentTime.time.hour + o) % 24
    ensures o % 24 != 0 ==> Shifted(lib, e, 0) != e.currentTime
  {
    var t := lib.parse(e.currentTime);
    assert lib.addHours(t, 0) == t;
    Reparses(lib, e.currentTime);
    assert lib.wall(t, e.timezone).time.hour == (lib.wall(t, lib.browserZone).time.hour + o) % 24;
    if o % 24 != 0 {
      HourMoves(e.currentTime.time.hour, o);
    }
  }

  /** Shifting by a and then by b moves a browser-zone entry's time as one shift by a + b. */
  lemma ShiftsCompose(lib: Library, e: Entry, a: int, b: int)
    requires ParsesBack(lib) && AdditiveHours(lib) && e.timezone == lib.browserZone
    ensures Shifted(lib, e.(currentTime := Shifted(lib, e, a)), b) == Shifted(lib, e, a + b)
  {
    var t := lib.addHours(lib.parse(e.currentTime), a);
    assert lib.parse(lib.wall(t, lib.browserZone)) == t;
    AddHoursCompose(lib, lib.parse(e.currentTime), a, b);
  }

  /**
   Moving a slider and then moving it back restores every slider value in
   the mounted component, and restores every browser-zone entry outright.
   */
  lemma MoveOneUndo(lib: Library, zs: seq<Entry>, index: int, value: int)
    requires ReparsesOwnOutput(lib) && ParsesBack(lib) && AdditiveHours(lib)
    requires 0 <= index < |zs|
    ensures var r := MoveOne(lib, zs, index, value).value;
            var back := MoveOne(lib, r, index, zs[index].sliderValue).value;
            && |back| == |zs|
            && (forall k :: 0 <= k < |zs| ==>
                  back[k].sliderValue == zs[k].sliderValue && back[k].timezone == zs[k].timezone)
            && (forall k :: 0 <= k < |zs| && zs[k].timezone == lib.browserZone && OnClock(lib, zs[k]) ==> back[k] == zs[k])
  {
    var diff := value - zs[index].sliderValue;
    var r := MoveOne(lib, zs, index, value).value;
    var back := MoveOne(lib, r, index, zs[index].sliderValue).value;
    assert r[index].sliderValue == value;
    forall k | 0 <= k < |zs|
      ensures back[k].sliderValue == zs[k].sliderValue && back[k].timezone == zs[k].timezone
    {
    }
    forall k | 0 <= k < |zs| && zs[k].timezone == lib.browserZone && OnClock(lib, zs[k])
      ensures back[k] == zs[k]
    {
      assert r[k] == zs[k].(sliderValue := r[k].sliderValue, currentTime := Shifted(lib, zs[k], diff));
      ShiftUndo(lib, zs[k], diff);
    }
  }

  /** The same undo for the duplicate component: the slider gaps make every slider return. */
  lemma MoveAllUndo(lib: Library, zs: seq<Entry>, index: int, value: int)
    requires ReparsesOwnOutput(lib) && ParsesBack(lib) && AdditiveHours(lib)
    requires 0 <= index < |zs|
    ensures var r := MoveAll(lib, zs, index, value).value;
            var back := MoveAll(lib, r, index, zs[index].sliderValue).value;
            && |back| == |zs|
            && (forall k :: 0 <= k < |zs| ==>
                  back[k].sliderValue == zs[k].sliderValue && back[k].timezone == zs[k].timezone)
            && (forall k :: 0 <= k < |zs| && zs[k].timezone == lib.browserZone && OnClock(lib, zs[k]) ==> back[k] == zs[k])
  {
    var diff := value - zs[index].sliderValue;
    var r := MoveAll(lib, zs, index, value).value;
    var back := MoveAll(lib, r, index, zs[index].sliderValue).value;
    forall k | 0 <= k < |zs| && zs[k].timezone == lib.browserZone && OnClock(lib, zs[k])
      ensures back[k] == zs[k]
    {
      assert r[k] == zs[k].(sliderValue := r[k].sliderValue, currentTime := Shifted(lib, zs[k], diff));
      ShiftUndo(lib, zs[k], diff);
    }
  }

  /** Shifting a browser-zone entry by diff and then by -diff gives its stored time back. */
  lemma ShiftUndo(lib: Library, e: Entry, diff: int)
    requires ReparsesOwnOutput(lib) && ParsesBack(lib) && AdditiveHours(lib)
    requires e.timezone == lib.browserZone && OnClock(lib, e)
    ensures Shifted(lib, e.(currentTime := Shifted(lib, e, diff)), -diff) == e.currentTime
  {
    ShiftsCompose(lib, e, diff, -diff);
    StillTimeIsKept(lib, e);
  }

  lemma StillTimeIsKept(lib: Library, e: Entry)
    requires ReparsesOwnOutput(lib) && AdditiveHours(lib) && e.timezone == lib.browserZone && OnClock(lib, e)
    ensures Shifted(lib, e, 0) == e.currentTime
  {
    var t := lib.parse(e.currentTime);
    assert lib.addHours(t, 0) == t;
    Reparses(lib, e.currentTime);
  }

  /**
   Under a fixed-offset library, shifting a browser-zone entry by diff hours
   moves the hour on its clock by diff, modulo 24.
   */
  lemma ShiftedHour(lib: Library, e: Entry, diff: int)
    requires ReparsesOwnOutput(lib) && HourShift(lib, lib.browserZone) && e.timezone == lib.browserZone && OnClock(lib, e)
    ensures Shifted(lib, e, diff).time.hour == (e.currentTime.time.hour + diff) % 24
  {
    var t := lib.parse(e.currentTime);
    Reparses(lib, e.currentTime);
    assert lib.wall(t, lib.browserZone) == e.currentTime;
  }

  /**
   In the mounted component the moved slider stays in step with its clock,
   but every other browser-zone slider falls out of step whenever the move
   is not a whole number of days: its clock moves and its slider does not.
   */
  lemma MoveOneStrandsOtherSliders(lib: Library, zs: seq<Entry>, index: int, value: int, k: nat)
    requires ReparsesOwnOutput(lib) && HourShift(lib, lib.browserZone)
    requires 0 <= index < |zs| && k < |zs| && zs[k].timezone == lib.browserZone && OnClock(lib, zs[k]) && Coherent(zs[k])
    ensures var r := MoveOne(lib, zs, index, value).value;
            && (k == index && 0 <= value < 24 ==> Coherent(r[k]))
            && (k != index && (value - zs[index].sliderValue) % 24 != 0 ==> !Coherent(r[k]))
  {
    ShiftedHour(lib, zs[k], value - zs[index].sliderValue);
  }

  /**
   In the duplicate every browser-zone slider moves with its clock, though
   only modulo 24: the slider value itself is not wrapped.
   */
  lemma MoveAllKeepsSlidersInStepModDay(lib: Library, zs: seq<Entry>, index: int, value: int, k: nat)
    requires ReparsesOwnOutput(lib) && HourShift(lib, lib.browserZone)
    requires 0 <= index < |zs| && k < |zs| && zs[k].timezone == lib.browserZone && OnClock(lib, zs[k])
    requires zs[k].sliderValue % 24 == zs[k].currentTime.time.hour
    ensures var r := MoveAll(lib, zs, index, value).value;
            r[k].sliderValue % 24 == r[k].currentTime.time.hour
  {
    var diff := value - zs[index].sliderValue;
    ShiftedHour(lib, zs[k], diff);
    assert (zs[k].sliderValue + diff) % 24 == (zs[k].sliderValue % 24 + diff) % 24;
  }
}

=== FILE: text.dfy ===
/**
 Text helpers shared by the date formats and the shareable link: decimal
 digits, moment's zero-fill of a number to a width, JavaScript's
 `Array.prototype.join`, and a `split` that undoes it.
 */
module Text {
  import opened Wrappers

  predicate IsDigit(c: char) {
    '0' <= c <= '9'
  }

  predicate AllDigits(s: string) {
    forall k :: 0 <= k < |s| ==> IsDigit(s[k])
  }

  function DigitChar(d: nat): (c: char)
    requires d < 10
    ensures IsDigit(c) && c as int - '0' as int == d
  {
    ('0' as int + d) as char
  }

  /** The decimal numeral of n, without leading zeros (`'' + n` in JavaScript). */
  function Digits(n: nat): (s: string)
    ensures 1 <= |s| && AllDigits(s)
    decreases n
  {
    if n < 10 then [DigitChar(n)] else Digits(n / 10) + [DigitChar(n % 10)]
  }

  function Zeros(k: nat): (s: string)
    ensures |s| == k
    ensures forall i :: 0 <= i < k ==> s[i] == '0'
  {
    seq(k, _ => '0')
  }

  /**
   moment's zeroFill(n, width): a minus sign for a negative n, then as many
   zeros as bring the numeral of |n| up to `width` characters, then that
   numeral. A numeral longer than `width` is kept whole.
   */
  function ZeroFill(n: int, width: nat): string {
    var ds := Digits(if n < 0 then -n else n);
    (if n < 0 then "-" else "") + Zeros(if |ds| < width then width - |ds| else 0) + ds
  }

  /** The number a string of digits denotes, read most significant first. */
  function Value(s: string): nat
    requires AllDigits(s)
  {
    if |s| == 0 then 0 else Value(s[..|s| - 1]) * 10 + (s[|s| - 1] as int - '0' as int)
  }

  /** Reads a non-empty string of decimal digits; anything else is refused. */
  function ParseNat(s: string): (r: Option<nat>)
    ensures r.Some? <==> 1 <= |s| && AllDigits(s)
  {
    if 1 <= |s| && AllDigits(s) then Some(Value(s)) else None
  }

  function Pow10(w: nat): (p: nat)
    ensures 1 <= p
  {
    if w == 0 then 1 else 10 * Pow10(w - 1)
  }

  lemma {:induction false} ValueOfDigits(n: nat)
    ensures Value(Digits(n)) == n
    decreases n
  {
    if n >= 10 {
      var s := Digits(n);
      assert s[..|s| - 1] == Digits(n / 10);
      ValueOfDigits(n / 10);
    }
  }

  lemma {:induction false} ValueSkipsZeros(k: nat, s: string)
    requires AllDigits(s)
    ensures AllDigits(Zeros(k) + s)
    ensures Value(Zeros(k) + s) == Value(s)
    decreases |s| + k
  {
    var t := Zeros(k) + s;
    if |s| == 0 {
      assert t == Zeros(k);
      if k > 0 {
        assert t[..|t| - 1] == Zeros(k - 1) + s;
        ValueSkipsZeros(k - 1, s);
      }
    } else {
      var s' := s[..|s| - 1];
      assert t[..|t| - 1] == Zeros(k) + s';
      ValueSkipsZeros(k, s');
    }
  }

  /** Zero-filling a non-negative number and reading it back gives the number. */
  lemma ZeroFillParses(n: nat, width: nat)
    ensures AllDigits(ZeroFill(n, width))
    ensures ParseNat(ZeroFill(n, width)) == Some(n)
  {
    var ds := Digits(n);
    var k := if |ds| < width then width - |ds| else 0;
    assert ZeroFill(n, width) == Zeros(k) + ds;
    ValueSkipsZeros(k, ds);
    ValueOfDigits(n);
  }

  lemma {:induction false} DigitsFit(n: nat, width: nat)
    requires 1 <= width && n < Pow10(width)
    ensures |Digits(n)| <= width
    decreases n
  {
    if n >= 10 {
      assert 2 <= width;
      assert n / 10 < Pow10(width - 1);
      DigitsFit(n / 10, width - 1);
    }
  }

  /** A number below 10^width zero-fills to exactly `width` characters. */
  lemma ZeroFillWidth(n: nat, width: nat)
    requires 1 <= width && n < Pow10(width)
    ensures |ZeroFill(n, width)| == width
  {
    DigitsFit(n, width);
  }

  /** `parts.join(sep)`: the parts with one separator between neighbours. */
  function Join(parts: seq<string>, sep: char): string {
    if |parts| == 0 then ""
    else if |parts| == 1 then parts[0]
    else parts[0] + [sep] + Join(parts[1..], sep)
  }

  lemma Join3(a: string, b: string, c: string, sep: char)
    ensures Join([a, b, c], sep) == a + [sep] + b + [sep] + c
  {
    assert [a, b, c][1..] == [b, c];
    assert [b, c][1..] == [c];
    assert Join([b, c], sep) == b + [sep] + c;
    assert Join([a, b, c], sep) == a + [sep] + (b + [sep] + c);
  }

  /** The pieces of s between separators; the inverse of Join on separator-free parts. */
  function Split(s: string, sep: char): (parts: seq<string>)
    ensures 1 <= |parts|
    decreases |s|
  {
    if |s| == 0 then [""]
    else
      var rest := Split(s[1..], sep);
      if s[0] == sep then [""] + rest else [[s[0]] + rest[0]] + rest[1..]
  }

  lemma {:induction false} SplitFree(s: string, sep: char)
    requires sep !in s
    ensures Split(s, sep) == [s]
    decreases |s|
  {
    if |s| > 0 {
      SplitFree(s[1..], sep);
      assert [s[0]] + s[1..] == s;
    }
  }

  lemma {:induction false} SplitAtFirst(a: string, sep: char, t: string)
    requires sep !in a
    ensures Split(a + [sep] + t, sep) == [a] + Split(t, sep)
    decreases |a|
  {
    var s := a + [sep] + t;
    if |a| == 0 {
      assert s[1..] == t;
    } else {
      assert s[1..] == a[1..] + [sep] + t;
      SplitAtFirst(a[1..], sep, t);
      assert [a[0]] + a[1..] == a;
    }
  }

  /** Splitting a join of separator-free parts recovers the parts. */
  lemma {:induction false} SplitJoin(parts: seq<string>, sep: char)
    requires 1 <= |parts|
    requires forall i :: 0 <= i < |parts| ==> sep !in parts[i]
    ensures Split(Join(parts, sep), sep) == parts
    decreases |parts|
  {
    if |parts| == 1 {
      SplitFree(parts[0], sep);
    } else {
      SplitAtFirst(parts[0], sep, Join(parts[1..], sep));
      SplitJoin(parts[1..], sep);
      assert [parts[0]] + parts[1..] == parts;
    }
  }

  /** A character that is not the separator and occurs in no part does not occur in the join. */
  lemma {:induction false} JoinAvoids(parts: seq<string>, sep: char, c: char)
    requires c != sep
    requires forall i :: 0 <= i < |parts| ==> c !in parts[i]
    ensures c !in Join(parts, sep)
    decreases |parts|
  {
    if |parts| > 1 {
      JoinAvoids(parts[1..], sep, c);
    }
  }

  lemma DigitsAvoid(s: string, c: char)
    requires AllDigits(s) && !IsDigit(c)
    ensures c !in s
  {
  }
}

=== FILE: wrappers.dfy ===
/** The optional-value datatype used for the handlers' failure cases. */
module Wrappers {

  datatype Option<+T> = None | Some(value: T)
}

=== FILE: zonelist.dfy ===
/**
 The tracked-zone list and the transitions both converter components apply
 to it identically: selecting a zone, deleting by position, reversing,
 drag-reordering and changing the date. Each transition yields a new list;
 the slider transitions, where the two components differ, are in `Slider`.
 */
module ZoneList {
  import opened Wrappers
  import opened Clock

  /** One tracked zone: its identifier, its stored wall-clock time, and the hour its slider shows. */
  datatype Entry = Entry(timezone: Zone, currentTime: Stamp, sliderValue: int)

  /** The slider shows the hour of the entry's own stored time. */
  predicate Coherent(e: Entry) {
    e.sliderValue == e.currentTime.time.hour
  }

  /** The stored time is a reading the entry's own zone's clock actually shows. */
  ghost predicate OnClock(lib: Library, e: Entry) {
    Shows(lib, e.timezone, e.currentTime)
  }

  /** The entry a selection creates: the current moment in the zone, and its hour on the slider. */
  function FreshEntry(lib: Library, now: Instant, zone: Zone): (e: Entry)
    ensures e.timezone == zone && Coherent(e)
    ensures e.currentTime == lib.wall(now, zone)
    ensures OnClock(lib, e)
  {
    Entry(zone, lib.wall(now, zone), HourOf(lib, now, zone))
  }

  /** handleSelectTimeZone: the new entry goes at the end; nothing before it changes. */
  function SelectZone(lib: Library, now: Instant, zs: seq<Entry>, zone: Zone): (r: seq<Entry>)
    ensures |r| == |zs| + 1 && r[..|zs|] == zs
    ensures r[|zs|].timezone == zone && Coherent(r[|zs|])
    ensures r[|zs|].currentTime == lib.wall(now, zone) && r[|zs|].sliderValue == lib.wall(now, zone).time.hour
    ensures OnClock(lib, r[|zs|])
  {
    zs + [FreshEntry(lib, now, zone)]
  }

  /**
   handleDeleteTimeZone: keeps exactly the entries whose position differs
   from `index`, the way `filter((_, i) => i !== index)` walks the array.
   */
  function DeleteZone(zs: seq<Entry>, index: int): (r: seq<Entry>)
    ensures |r| == if 0 <= index < |zs| then |zs| - 1 else |zs|
  {
    if |zs| == 0 then []
    else DeleteZone(zs[..|zs| - 1], index) + (if |zs| - 1 == index then [] else [zs[|zs| - 1]])
  }

  /** The splice `xs.splice(i, 1)`: the list without position i. */
  function RemoveAt(zs: seq<Entry>, i: nat): (r: seq<Entry>)
    requires i < |zs|
    ensures |r| == |zs| - 1
    ensures multiset(r) + multiset{zs[i]} == multiset(zs)
  {
    assert zs == zs[..i] + [zs[i]] + zs[i + 1..];
    zs[..i] + zs[i + 1..]
  }

  /** The splice `xs.splice(i, 0, e)`: e goes in at i, or at the end when i is past it. */
  function InsertAt(zs: seq<Entry>, i: nat, e: Entry): (r: seq<Entry>)
    ensures |r| == |zs| + 1
    ensures multiset(r) == multiset(zs) + multiset{e}
  {
    var k := if i <= |zs| then i else |zs|;
    assert zs == zs[..k] + zs[k..];
    zs[..k] + [e] + zs[k..]
  }

  /** Where a dragged entry lands in a list of n entries when dropped at `destination`. */
  function Landing(n: nat, destination: nat): nat {
    if destination < n then destination else if n == 0 then 0 else n - 1
  }

  /**
   onDragEnd: without a destination the list is unchanged; otherwise the
   source entry is spliced out and spliced back in at the destination.
   The drag library only reports the source index of a rendered entry.
   */
  function Reorder(zs: seq<Entry>, source: nat, destination: Option<nat>): (r: seq<Entry>)
    requires destination.Some? ==> source < |zs|
    ensures |r| == |zs| && multiset(r) == multiset(zs)
    ensures destination.None? ==> r == zs
    ensures destination.Some? ==>
              var k := Landing(|zs|, destination.value);
              k < |r| && r[k] == zs[source] && RemoveAt(r, k) == RemoveAt(zs, source)
  {
    match destination
    case None => zs
    case Some(d) =>
      var rest := RemoveAt(zs, source);
      InsertLands(rest, d, zs[source]);
      InsertAt(rest, d, zs[source])
  }

  /** The entry spliced in sits at its landing place, and splicing it out again restores the list. */
  lemma InsertLands(rest: seq<Entry>, d: nat, e: Entry)
    ensures var r := InsertAt(rest, d, e);
            var k := Landing(|rest| + 1, d);
            k < |r| && r[k] == e && RemoveAt(r, k) == rest
  {
    var r := InsertAt(rest, d, e);
    var k := Landing(|rest| + 1, d);
    assert r == rest[..k] + [e] + rest[k..];
    assert r[..k] == rest[..k];
    assert r[k + 1..] == rest[k..];
  }

  /** handleReverseTimezones: `[...prev].reverse()`. */
  function ReverseZones(zs: seq<Entry>): (r: seq<Entry>)
    ensures |r| == |zs|
    ensures forall k :: 0 <= k < |zs| ==> r[k] == zs[|zs| - 1 - k]
  {
    if |zs| == 0 then [] else ReverseZones(zs[1..]) + [zs[0]]
  }

  /** The stored time of one entry after the date change: the library's date setter in its own zone. */
  function Redated(lib: Library, e: Entry, d: CalDate): (s: Stamp)
    ensures Shows(lib, e.timezone, s)
  {
    ShowsWall(lib, lib.setDate(lib.parse(e.currentTime), e.timezone, d), e.timezone);
    lib.wall(lib.setDate(lib.parse(e.currentTime), e.timezone, d), e.timezone)
  }

  /** handleDateChange: every entry is re-dated in its own zone; zones, sliders and order stay. */
  function ChangeDate(lib: Library, zs: seq<Entry>, d: CalDate): (r: seq<Entry>)
    ensures |r| == |zs|
    ensures forall k :: 0 <= k < |zs| ==>
              r[k].timezone == zs[k].timezone && r[k].sliderValue == zs[k].sliderValue
    ensures forall k :: 0 <= k < |zs| ==> r[k].currentTime == Redated(lib, zs[k], d)
    ensures forall k :: 0 <= k < |zs| ==> OnClock(lib, r[k])
  {
    seq(|zs|, k requires 0 <= k < |zs| => zs[k].(currentTime := Redated(lib, zs[k], d)))
  }

  // Properties of the transitions.

  /** Deleting an in-range position is the splice without it; any other index deletes nothing. */
  lemma {:induction false} DeleteZoneSplices(zs: seq<Entry>, index: int)
    ensures DeleteZone(zs, index) == if 0 <= index < |zs| then zs[..index] + zs[index + 1..] else zs
  {
    if |zs| > 0 {
      var init := zs[..|zs| - 1];
      var last := zs[|zs| - 1];
      DeleteZoneSplices(init, index);
      if index == |zs| - 1 {
        assert zs[..index] == init;
        assert zs[index + 1..] == [];
      } else if 0 <= index < |zs| - 1 {
        assert init[..index] == zs[..index];
        assert init[index + 1..] + [last] == zs[index + 1..];
      } else {
        assert init + [last] == zs;
      }
    }
  }

  /** Deleting position i drops exactly the entry zs[i] from the multiset of entries. */
  lemma DeleteZoneDropsOne(zs: seq<Entry>, index: int)
    requires 0 <= index < |zs|
    ensures multiset(DeleteZone(zs, index)) + multiset{zs[index]} == multiset(zs)
  {
    DeleteZoneSplices(zs, index);
    assert DeleteZone(zs, index) == RemoveAt(zs, index);
  }

  /** Deleting the entry just selected gives the list back. */
  lemma DeleteUndoesSelect(lib: Library, now: Instant, zs: seq<Entry>, zone: Zone)
    ensures DeleteZone(SelectZone(lib, now, zs, zone), |zs|) == zs
  {
    var r := SelectZone(lib, now, zs, zone);
    DeleteZoneSplices(r, |zs|);
    assert r[..|zs|] == zs;
  }

  /** Reversing twice gives the list back. */
  lemma ReverseInvolution(zs: seq<Entry>)
    ensures ReverseZones(ReverseZones(zs)) == zs
  {
    var r := ReverseZones(zs);
    var rr := ReverseZones(r);
    assert forall k :: 0 <= k < |zs| ==> rr[k] == r[|zs| - 1 - k] == zs[k];
  }

  /** Reversing keeps the multiset of entries. */
  lemma {:induction false} ReversePermutes(zs: seq<Entry>)
    ensures multiset(ReverseZones(zs)) == multiset(zs)
  {
    if |zs| > 0 {
      ReversePermutes(zs[1..]);
      assert zs == [zs[0]] + zs[1..];
    }
  }

  /** Dropping an entry back where it was picked up changes nothing. */
  lemma ReorderInPlace(zs: seq<Entry>, i: nat)
    requires i < |zs|
    ensures Reorder(zs, i, Some(i)) == zs
  {
    var rest := RemoveAt(zs, i);
    assert rest[..i] + [zs[i]] + rest[i..] == zs;
  }

  /** Dragging an entry from s to d and then from d back to s gives the list back. */
  lemma ReorderUndo(zs: seq<Entry>, s: nat, d: nat)
    requires s < |zs| && d < |zs|
    ensures Reorder(Reorder(zs, s, Some(d)), d, Some(s)) == zs
  {
    var r := Reorder(zs, s, Some(d));
    assert Landing(|zs|, d) == d;
    var rest := RemoveAt(r, d);
    assert rest == RemoveAt(zs, s);
    assert rest[..s] + [zs[s]] + rest[s..] == zs;
  }

  /** Under a library that keeps the time of day when setting a date, every entry ends on the picked date. */
  lemma ChangeDateSetsDate(lib: Library, zs: seq<Entry>, d: CalDate)
    requires DatePreserving(lib) && ValidDate(d)
    ensures forall k :: 0 <= k < |zs| ==>
              ChangeDate(lib, zs, d)[k].currentTime
              == Stamp(d, lib.wall(lib.parse(zs[k].currentTime), zs[k].timezone).time)
  {
    var r := ChangeDate(lib, zs, d);
    forall k | 0 <= k < |zs|
      ensures r[k].currentTime == Stamp(d, lib.wall(lib.parse(zs[k].currentTime), zs[k].timezone).time)
    {
      var t := lib.parse(zs[k].currentTime);
      assert r[k].currentTime == lib.wall(lib.setDate(t, zs[k].timezone, d), zs[k].timezone);
    }
  }

  /**
   For entries in the browser's own zone the re-read is exact, so the date
   change keeps their time of day and the slider stays in step.
   */
  lemma ChangeDateKeepsBrowserZoneTime(lib: Library, zs: seq<Entry>, d: CalDate, k: nat)
    requires DatePreserving(lib) && ReparsesOwnOutput(lib) && ValidDate(d)
    requires k < |zs| && zs[k].timezone == lib.browserZone && OnClock(lib, zs[k])
    ensures ChangeDate(lib, zs, d)[k].currentTime == Stamp(d, zs[k].currentTime.time)
    ensures Coherent(zs[k]) ==> Coherent(ChangeDate(lib, zs, d)[k])
  {
    var t := lib.parse(zs[k].currentTime);
    assert ChangeDate(lib, zs, d)[k].currentTime == lib.wall(lib.setDate(t, zs[k].timezone, d), zs[k].timezone);
    Reparses(lib, zs[k].currentTime);
  }
}
